=== FILE: README.md ===
# pebble-fireflies: a Dafny model of the swarm

pebble-fireflies is a Pebble watch face. 140 glowing particles ("fireflies")
wander around the screen. On every minute tick, or on a tap, they swarm into
the shape of the current time: one group of particles per digit, drawn from
a 1-bit bitmap of that digit, plus two particles for the colon. After
twelve seconds the swarm disperses again.

This project models the swarm logic of `src/pebble-fireflies.c` as pure
functions over an immutable sequence of 140 particle records, and proves
what that logic promises.

Modules:

- `Random` (random.dfy) models the tinymt32 generator as an oracle,
  together with `random_in_range` and `random_in_rangef`.
  - The oracle is `draw: nat -> real`: the n-th call to
    `tinymt32_generate_float01` returns `draw(n)`, a value in [0, 1).
  - Every operation takes the position of its first unused draw and returns
    the position after its last one. So the order and the number of draws
    are part of the model.
  - `Trunc` models C's conversion of a float to `int`, which truncates
    toward zero.
- `Particles` (particles.dfy) holds:
  - the constants;
  - the `FParticle` record and its constructor macro;
  - the swarm, which is the particle array together with the
    `showing_time` flag;
  - the invariant that every particle keeps.
- `Physics` (physics.dfy) models `update_particle` and the update loop of
  `update_particles_layer`.
- `Sampler` (sampler.dfy) models `swarm_to_digit`:
  - the rejection loop over bitmap bytes;
  - the bounded retry over bit positions;
  - the decoding of a bit offset into a pixel row and column;
  - the retargeting of each particle.
- `Layout` (layout.dfy) models `get_display_hour`, the digit split, and
  `display_time` with its digit groups, colon dots and floaters.
- `Controller` (controller.dfy) models the mode transitions:
  - `random_point_roughly_in_screen`;
  - `swarm_to_a_different_location`;
  - `disperse_particles`;
  - the swarm and disperse timer handlers;
  - `init_particles`;
  - a run of events (frames, timers, clock ticks and taps) over the one-flag
    state machine `showing_time`.

Points where the code departs from the obvious reading. The model follows
the code at each of them:

- **`abs` on floats.** The `abs` of lines 123, 127 and 133 is C's integer
  `abs`, so its float argument is first truncated toward zero. As a result:
  - a particle of any size below 1 may start a blink;
  - a particle of any size in (2, 4) gets goal size 0;
  - the size eases toward its goal only while the two differ by at least 1.

  `Physics.Blink` and `Physics.Stepped` state these consequences.
- **Last digit group.** In the four-group layout the last group is
  [99, 135), 36 particles, because it runs up to `NUM_PARTICLES - save`.
- **Relocation.** `swarm_to_a_different_location` retargets every particle,
  including those still forming a digit.
- **Colon dots.** They never get `swarming = true`: `Controller.ColonNeverSwarms`
  states it for every run of events after `init_particles`.
- **Bit retries.** The bit retry loop draws up to ten bit positions (nine
  redraws), because it tests `tries < 0` with `tries` starting at 8.
- **Byte loop.** The loop that looks for a non-zero byte ends only if some
  later draw hits such a byte:
  - `Sampler.AcceptByte` takes a ghost index of such a draw, which bounds
    the search;
  - the functions above it require that hits keep coming (`Sampler.Live`);
  - they are ghost functions, because they choose that index.
- **Dispersal speed.** `disperse_particles` (lines 164-168) clears
  `swarming` but does not clamp `dx`/`dy` again. So a particle may keep a
  speed of up to 2 per axis while not swarming, until its next step. The
  cap of 1 for a particle that is not swarming is stated only after a step
  (`Physics.StepKeepsWellFormed`).
- **Bit draws.** The sampling functions take the bit positions as a stream
  `bits` in which the k-th element is the position `random_in_range(0, 7)`
  makes of draw k. `Sampler.SwarmToDigit` passes the stream built from the
  same draws (`Sampler.BitDraws`), so byte and bit draws still interleave as
  in the program.

## Model

| member | source | states |
|---|---|---|
| Random.Trunc | src/pebble-fireflies.c:133 | the float-to-int conversion truncates toward zero: the result lies within 1 of x, on the side of zero, and it is 0 exactly when -1 < x < 1 |
| Random.Abs | src/pebble-fireflies.c:123-133 | C's integer `abs`: the result is n or -n and never negative |
| Random.RandomInRange | src/pebble-fireflies.c:62-64 | for a draw in [0, 1) and min <= max the result lies in [min, max] |
| Random.RandomInRangeCovers | src/pebble-fireflies.c:62-64 | every integer of [min, max] is returned for some draw in [0, 1) |
| Random.RandomInRangeF | src/pebble-fireflies.c:66-68 | for a draw in [0, 1) and min < max the result lies in [min, max) |
| Random.RandomInRangeFCovers | src/pebble-fireflies.c:66-68 | every value of [min, max) is returned for some draw in [0, 1) |
| Particles.NewParticle | src/pebble-fireflies.c:42 | the constructor places the particle at rest at its start, with the given attractor and stiffness, size and goal size 0, not swarming; with a stiffness of 400 or 1 the new particle is well formed |
| Particles.Clamp | src/pebble-fireflies.c:112-115 | the snapped value lies in [lo, hi], is x when x is inside and the nearer bound otherwise |
| Physics.AfterJitter | src/pebble-fireflies.c:83-86 | the jitter block uses three draws exactly when its first draw is below 0.4 (the kick), and one draw otherwise |
| Physics.Blink | src/pebble-fireflies.c:122-130 | with the truncating abs, a size in [0, 1) draws once and starts a blink when the draw is below 0.0008; a size in [1, 2] keeps its goal and draws nothing; a size in (2, 3] gets goal 0 |
| Physics.UpdateParticle | src/pebble-fireflies.c:82-138 | each step keeps the attractor and stiffness; velocity stays within the cap of the new swarming state; size stays in [0, 3]; swarming only turns off, and exactly when the particle came within the goal distance; the particle moves by its new velocity; the goal size is untouched while the time is shown; a size within 1 of its goal stays put; the step uses 2 to 5 draws |
| Physics.StepKeepsWellFormed | src/pebble-fireflies.c:93-137 | a step keeps a particle well formed, and a particle that is not swarming afterwards moves at most 1 per axis |
| Physics.UpdateFrom | src/pebble-fireflies.c:148-151 | the update loop from index i on steps each later particle and leaves the earlier ones alone |
| Physics.UpdateParticles | src/pebble-fireflies.c:146-153 | one frame steps every particle, keeps the swarm valid and leaves `showing_time` alone |
| Sampler.BitSetIsMask | src/pebble-fireflies.c:240 | the bit predicate agrees with the test `pixel & (1 << bit)` |
| Sampler.ByteIndex | src/pebble-fireflies.c:226-227 | a byte index drawn over `row_size_bytes * h - 1` lies in the bitmap |
| Sampler.AcceptByte | src/pebble-fireflies.c:227-234 | the loop returns the index of the first draw that hits a non-zero byte; every draw before it missed |
| Sampler.BitIndex | src/pebble-fireflies.c:238 | a bit-position draw lies in [0, 7] |
| Sampler.BitIndexIsRandomInRange | src/pebble-fireflies.c:238 | the bit-position draw is `random_in_range(0, 7)` |
| Sampler.BitDrawsInRange | src/pebble-fireflies.c:238 | every drawn bit position lies in [0, 7] |
| Sampler.RetryBit | src/pebble-fireflies.c:240-244 | the retry loop stops at the first drawn position whose bit is set, or at the break once `tries` is below zero; every position it passed over was clear |
| Sampler.PickBit | src/pebble-fireflies.c:238-245 | the picked bit is the last of at most ten drawn positions; it is set unless all ten draws were used |
| Sampler.PickBitMissed | src/pebble-fireflies.c:240-244 | when the picked bit is clear, the loop left through the break and all ten drawn positions were clear |
| Sampler.SplitBitOffset | src/pebble-fireflies.c:248-250 | the bit offset idx * 8 + bit splits at the row stride into row idx / row_size_bytes and column (idx % row_size_bytes) * 8 + bit |
| Sampler.DecodeRoundTrip | src/pebble-fireflies.c:237-250 | decoding a byte index and bit position gives row * row_size_bits + col == idx * 8 + bit, row < h and col < row_size_bits; bit col % 8 of byte row * row_size_bytes + col / 8 is the sampled one; bit_pos / 8 == idx |
| Sampler.SampledPixel | src/pebble-fireflies.c:245-250 | the decoded pixel lies in the bitmap, in the sampled byte, at the sampled bit |
| Sampler.PickedPixel | src/pebble-fireflies.c:237-250 | the pixel picked in a byte lies in the bitmap and in that byte, and is set unless the ten bit draws right after the byte draw all named clear bits of that byte |
| Sampler.SampleFrom | src/pebble-fireflies.c:226-250 | the sampled pixel lies in the bitmap and in a non-zero byte; it is a foreground pixel unless the ten bit draws that end at the returned position, all after the starting position, named clear bits of its byte |
| Sampler.SamplePixel | src/pebble-fireflies.c:226-250 | the same, on an oracle whose byte hits keep coming |
| Sampler.SampleParticle | src/pebble-fireflies.c:226-258 | one loop body uses the draws of [pos, r.1) and gives the particle an integral attractor at a pixel of the bitmap shifted by (offset_x, offset_y), inside a non-zero byte and a foreground pixel unless the ten draws right before the goal-size draw r.1 - 1, which are the bit draws for that byte, all named clear bits; tight stiffness, a goal size in [2, 3.5) and swarming; nothing else changes |
| Sampler.AimRetargets | src/pebble-fireflies.c:252-258 | aiming a particle at a sampled pixel with a goal size in [2, 3.5) is a retargeting to that glyph, for the window that ends right after the goal-size draw, with the sample's ten missed bit draws just before it |
| Sampler.RetargetedKeepsWellFormed | src/pebble-fireflies.c:255-258 | retargeting keeps a particle well formed and keeps its position and size |
| Sampler.RetargetRange | src/pebble-fireflies.c:216-259 | the loop retargets exactly the particles of [i, end), each to a sampled pixel of the glyph as above with the draws of its own window; the windows lie in [pos, r.1) and follow one another in particle order, so no two particles share a draw; every other particle is left alone |
| Sampler.RetargetStep | src/pebble-fireflies.c:216-259 | one pass of the loop followed by the rest of the loop retargets the whole range, each particle with its own window |
| Sampler.WindowsFollow | src/pebble-fireflies.c:216-259 | the window of one pass put in front of the windows of the later passes keeps them in order inside the loop's draws |
| Sampler.SwarmToDigit | src/pebble-fireflies.c:213-261 | `swarm_to_digit` retargets exactly the particles of [start_idx, min(end_idx, 140)) and leaves every other particle unchanged; each retargeted particle is aimed at a pixel of the digit's bitmap in a non-zero byte, a foreground pixel unless the ten draws just before the goal-size draw that ends its own window, its bit draws, all missed; the windows lie inside the call's draws and no two particles share a draw |
| Layout.DisplayHour | src/pebble-fireflies.c:263-267 | 24-hour mode returns the hour; 12-hour mode returns a value in [1, 12] congruent to the hour modulo 12 |
| Layout.DisplayHourTwelve | src/pebble-fireflies.c:263-267 | on 0..23, 12-hour mode is the dial reading: 0 and 12 show 12, 13 shows 1 |
| Layout.TimeDigits | src/pebble-fireflies.c:276-279 | tens and ones recompose the hour and the minute, with the ones digit in [0, 9] |
| Layout.DigitsInRange | src/pebble-fireflies.c:276-279 | for hour <= 23 and minute <= 59 every digit passed on is in [0, 9], so `number_bitmaps[digit]` is in bounds |
| Layout.SlotBoundaries | src/pebble-fireflies.c:289-310 | the groups are [0, 45), [45, 90), [90, 135) when the hour tens is 0, and [0, 33), [33, 66), [66, 99), [99, 135) otherwise, with their digits and x offsets |
| Layout.SlotsValid | src/pebble-fireflies.c:289-310 | the groups name glyphs of the font, lie in the array and are ordered and disjoint |
| Layout.SlotsTile | src/pebble-fireflies.c:287-310 | the groups cover exactly the indices below 135, each index in exactly one group |
| Layout.ColonDot | src/pebble-fireflies.c:296-303 | a colon dot gets its attractor, tight stiffness and goal size 3; it stays well formed, keeps its position and speed and does not start swarming |
| Layout.Colon | src/pebble-fireflies.c:312-320 | particles 138 and 139 become the colon dots and the rest is untouched; every particle keeps its swarming flag and its well-formedness, so calm colon dots stay calm |
| Layout.ShowSlots | src/pebble-fireflies.c:291-293 | the successive `swarm_to_digit` calls show every group, each particle with its own window of draws inside [pos, r.1) and no two sharing a draw, and leave the particles outside all groups alone |
| Layout.ShowStep | src/pebble-fireflies.c:307-310 | one call followed by the remaining ones shows all the groups, each particle keeping the window of the call that moved it |
| Layout.WindowsStep | src/pebble-fireflies.c:291-310 | the windows of one call, which precede those of the later calls, keep all windows of the groups in order inside the draws of the whole display |
| Layout.ShownLater | src/pebble-fireflies.c:308-310 | a later call outside a group keeps that group shown |
| Layout.ShownEarlier | src/pebble-fireflies.c:307-309 | an earlier call outside a group does not disturb the group a later call shows |
| Layout.DisplayTime | src/pebble-fireflies.c:269-323 | `display_time` sets `showing_time`, shows every group of the layout (each of its particles retargeted to a sampled pixel of its digit, with its own window of the draws of the call, no two particles sharing a draw), places the colon at x 57 or 68 with y 69 and 89, leaves particles 135 to 137 alone and keeps the swarm valid |
| Layout.DisplayKeepsValid | src/pebble-fireflies.c:289-321 | after the groups and the colon every particle is still well formed, and the floaters are untouched |
| Controller.RoughPoint | src/pebble-fireflies.c:76-80 | x, then y, are drawn as integers in [padding - margin, size + 1 + margin - padding] |
| Controller.RoughPointCovers | src/pebble-fireflies.c:76-80 | every integer point of that box is drawn by some pair of draws |
| Controller.Recenter | src/pebble-fireflies.c:158-160 | the loop gives every particle the new attractor and changes nothing else |
| Controller.SwarmToLocation | src/pebble-fireflies.c:155-161 | all particles share one new attractor, drawn with padding 30 so that it lies in [30, size - 29]; nothing else changes |
| Controller.Loosen | src/pebble-fireflies.c:164-168 | every particle gets power 400, goal size 0 and swarming false, and nothing else changes |
| Controller.DisperseParticles | src/pebble-fireflies.c:163-170 | afterwards every particle is loose, with goal size 0, not swarming and one shared attractor; positions, velocities and sizes are kept |
| Controller.HandleSwarmTimer | src/pebble-fireflies.c:177-182 | while the time is shown the swarm is unchanged, otherwise it relocates; the next delay lies in [5000, 15000] |
| Controller.HandleDisperseTimer | src/pebble-fireflies.c:184-187 | afterwards `showing_time` is 0 and the swarm is dispersed |
| Controller.InitFrom | src/pebble-fireflies.c:342-354 | particle j starts at the j-th drawn point, at rest, with power 400, attracted to the window centre |
| Controller.InitParticles | src/pebble-fireflies.c:340-355 | every particle is at rest, with size and goal size 0 and power 400, not swarming, attracted to (w/2, h/2), starting in [-10, w + 11] x [-10, h + 11] (margin 10, plus the one pixel past the far edge that the range adds); the swarm is valid |
| Controller.Step | src/pebble-fireflies.c:172-187 | each handled event keeps the swarm valid; showing the time sets the flag; the disperse timer clears it and disperses; the swarm timer is a no-op while the time is shown |
| Controller.LastModeStep | src/pebble-fireflies.c:184-187 | the flag left by a run is extended by one event at the front |
| Controller.Run | src/pebble-fireflies.c:172-187 | over any run of events the swarm stays valid, and `showing_time` is what the last event writing it (a display or a dispersal) wrote, or its start value when no event writes it |
| Controller.DisplayAfterDispersal | src/pebble-fireflies.c:296-320 | showing the time right after a dispersal leaves the floaters loose and not swarming; the colon dots are tight but not swarming |
| Controller.StepKeepsColonCalm | src/pebble-fireflies.c:172-187 | no handled event makes a colon dot swarm when neither did before |
| Controller.RunKeepsColonCalm | src/pebble-fireflies.c:172-187 | over any run of events calm colon dots stay calm |
| Controller.ColonNeverSwarms | src/pebble-fireflies.c:296-320 | after `init_particles` and any run of events the colon dots are not swarming, because `display_time` sets their attractor, stiffness and goal size but never `swarming` |

## Left out

- Rendering is left out, because it is foreign Pebble drawing API: `draw_particle`, the graphics calls of `update_particles_layer`, and `layer_update_callback`.
- Timer registration, `handle_animation_timer`, `kickoff_display_time`, `handle_tick`, `handle_tap` and the subscriptions are left out as platform scheduling and I/O.
  - A handler is modelled as a transition of the swarm.
  - A clock tick or tap is an event that carries the hour and minute that `time`/`localtime` would read.
  - The 12000 ms disperse delay and the 50 ms frame delay are not modelled.
- Window, layer and text-layer lifecycle (`handle_init`, `handle_deinit`, `main`) is left out, including seeding the generator with 4.
- The internals of tinymt32 are left out. The generator is an oracle of draws in [0, 1).
- Glyph contents are left out. numbers.h is not part of this model: a glyph is an abstract packed bitmap (`seq<bv8>`, `row_size_bytes`, height).
- `clock_is_24h_style` is foreign, so it is passed in as a boolean. The window size is passed in as width and height.
- Physics.UpdateParticle: arithmetic is over `real`. Float rounding is not modelled. Nor is the effect on position and velocity of the 0.999 damping, of the division by `power` or of the randomised easing rate. Only the clamps, the flag rules and the draw order are stated.
- Sampler.SampleParticle: the `int16` fields of `GPoint` and the float-to-`int16` conversion of the goal are not modelled. All coordinates involved are small integers.
- Controller.RoughPoint: C leaves the evaluation order of the two `random_in_range` calls in the `GPoint` initializer unspecified. The model draws x first.
- `random_point_in_screen` is unused by the program, and so is the `maximum` macro. The commented-out `handle_timer` is dead code. All three are left out.
- Random.RandomInRangeF: the bound `r < max` holds over reals only. In single-precision floats `min + f * (max - min)` can round up to `max` itself: for `random_in_rangef(2.0F, 3.5F)` and the draw 1 - 2^-24 the product rounds to 1.5 - 2^-23 and the sum is a tie that rounds to 3.5. The goal size bound `< 3.5` of Sampler.Retargeted and the easing divisor below 5000 inherit this gap.
- Sampler.SamplePixel: the byte rejection loop is modelled only on oracles under which, from every position on, some later draw hits a non-zero byte (`Live`). That is a sufficient condition for every call in a run to end. A single call never ends exactly when no draw at or after its start hits a non-zero byte. `Sampler.SampleFrom` covers one call on any oracle, given one such hit.

=== FILE: controller.dfy ===
/**
 The mode transitions of the fireflies swarm: the initial scattering of
 the particles, the periodic relocation of the swarm, the dispersal that
 ends the time display, and the handlers that drive them. Timers, the
 window and the clock are outside the model: a handler is a transition of
 the swarm, and its timer request is returned as a delay where the delay is
 random.
 */
module Controller {
  import opened Random
  import opened Particles
  import opened Physics
  import opened Sampler
  import opened Layout

  /** `random_point_roughly_in_screen(margin, padding)` on a `width` by
      `height` window: x is drawn first, then y, each by `random_in_range`
      over the window widened by `margin` and narrowed by `padding` (and
      one pixel past the far edge). */
  function RoughPoint(width: int, height: int, margin: int, padding: int, draw: Oracle, pos: nat)
    : (r: (Point, nat))
    requires ValidOracle(draw)
    ensures r.1 == pos + 2
    ensures padding - margin <= width + 1 + margin - padding ==>
      (padding - margin) as real <= r.0.x <= (width + 1 + margin - padding) as real
    ensures padding - margin <= height + 1 + margin - padding ==>
      (padding - margin) as real <= r.0.y <= (height + 1 + margin - padding) as real
    ensures r.0.x == r.0.x.Floor as real && r.0.y == r.0.y.Floor as real
  {
    var x := RandomInRange(0 - margin + padding, width + 1 + margin - padding, draw(pos));
    var y := RandomInRange(0 - margin + padding, height + 1 + margin - padding, draw(pos + 1));
    (Point(x as real, y as real), pos + 2)
  }

  /** Every integer point of the widened window is drawn: the draws
      `(x - lo) / n` and `(y - lo) / m`, both in [0, 1), give (x, y). */
  lemma RoughPointCovers(width: int, height: int, margin: int, padding: int, x: int, y: int,
                         draw: Oracle, pos: nat)
    requires ValidOracle(draw)
    requires padding - margin <= x <= width + 1 + margin - padding
    requires padding - margin <= y <= height + 1 + margin - padding
    requires draw(pos) == (x - (padding - margin)) as real / (width + 1 + 2 * (margin - padding) + 1) as real
    requires draw(pos + 1) == (y - (padding - margin)) as real / (height + 1 + 2 * (margin - padding) + 1) as real
    ensures RoughPoint(width, height, margin, padding, draw, pos).0 == Point(x as real, y as real)
  {
    RandomInRangeCovers(0 - margin + padding, width + 1 + margin - padding, x);
    RandomInRangeCovers(0 - margin + padding, height + 1 + margin - padding, y);
  }

  /** The loop of `swarm_to_a_different_location`: every particle gets
      attractor `c`. */
  function Recenter(ps: seq<Particle>, c: Point): (qs: seq<Particle>)
    decreases |ps|
    ensures |qs| == |ps|
    ensures forall i :: 0 <= i < |ps| ==> qs[i] == ps[i].(gravCenter := c)
  {
    if |ps| == 0 then []
    else [ps[0].(gravCenter := c)] + Recenter(ps[1..], c)
  }

  /** All particles share one attractor. */
  predicate SharedCenter(ps: seq<Particle>, c: Point) {
    forall i :: 0 <= i < |ps| ==> ps[i].gravCenter == c
  }

  /** `swarm_to_a_different_location`: one point drawn with padding 30 and
      no margin becomes the attractor of every particle, including those
      still forming a digit; nothing else changes. */
  function SwarmToLocation(s: Swarm, width: int, height: int, draw: Oracle, pos: nat): (r: (Swarm, nat))
    requires ValidOracle(draw) && ValidSwarm(s)
    ensures ValidSwarm(r.0) && r.0.showingTime == s.showingTime
    ensures r.1 == pos + 2
    ensures SharedCenter(r.0.particles, r.0.particles[0].gravCenter)
    ensures forall i :: 0 <= i < NumParticles ==>
      r.0.particles[i] == s.particles[i].(gravCenter := r.0.particles[i].gravCenter)
    ensures 59 <= width ==> 30.0 <= r.0.particles[0].gravCenter.x <= (width - 29) as real
    ensures 59 <= height ==> 30.0 <= r.0.particles[0].gravCenter.y <= (height - 29) as real
  {
    var (c, n) := RoughPoint(width, height, 0, 30, draw, pos);
    (Swarm(Recenter(s.particles, c), s.showingTime), n)
  }

  /** The loop of `disperse_particles`: loose stiffness, goal size zero and
      not swarming. */
  function Loosen(ps: seq<Particle>): (qs: seq<Particle>)
    decreases |ps|
    ensures |qs| == |ps|
    ensures forall i :: 0 <= i < |ps| ==>
      qs[i] == ps[i].(power := NormalPower, goalSize := 0.0, swarming := false)
  {
    if |ps| == 0 then []
    else [ps[0].(power := NormalPower, goalSize := 0.0, swarming := false)] + Loosen(ps[1..])
  }

  /** Every particle wanders: loose stiffness, goal size zero, not
      swarming, one shared attractor. */
  predicate Dispersed(ps: seq<Particle>) {
    && |ps| > 0
    && SharedCenter(ps, ps[0].gravCenter)
    && forall i :: 0 <= i < |ps| ==>
         ps[i].power == NormalPower && ps[i].goalSize == 0.0 && !ps[i].swarming
  }

  /** `disperse_particles`: loosen every particle, then relocate the swarm.
      Positions, velocities and sizes are untouched. */
  function DisperseParticles(s: Swarm, width: int, height: int, draw: Oracle, pos: nat): (r: (Swarm, nat))
    requires ValidOracle(draw) && ValidSwarm(s)
    ensures ValidSwarm(r.0) && r.0.showingTime == s.showingTime
    ensures Dispersed(r.0.particles)
    ensures forall i :: 0 <= i < NumParticles ==>
      var p, q := s.particles[i], r.0.particles[i];
      q.position == p.position && q.dx == p.dx && q.dy == p.dy && q.size == p.size && q.ds == p.ds
    ensures r.1 == pos + 2
  {
    var loose := Swarm(Loosen(s.particles), s.showingTime);
    SwarmToLocation(loose, width, height, draw, pos)
  }

  /** `handle_swarm_timer`: relocate the swarm unless the time is shown,
      then draw the delay of the next swarm timer in [5000, 15000] ms. */
  function HandleSwarmTimer(s: Swarm, width: int, height: int, draw: Oracle, pos: nat)
    : (r: (Swarm, nat, int))
    requires ValidOracle(draw) && ValidSwarm(s)
    ensures ValidSwarm(r.0) && r.0.showingTime == s.showingTime
    ensures s.showingTime ==> r.0 == s && r.1 == pos + 1
    ensures !s.showingTime ==> r.0 == SwarmToLocation(s, width, height, draw, pos).0 && r.1 == pos + 3
    ensures 5000 <= r.2 <= 15000
  {
    var (t, n) := if s.showingTime then (s, pos) else SwarmToLocation(s, width, height, draw, pos);
    (t, n + 1, RandomInRange(5000, 15000, draw(n)))
  }

  /** `handle_disperse_timer`: the time display ends and the swarm
      disperses. */
  function HandleDisperseTimer(s: Swarm, width: int, height: int, draw: Oracle, pos: nat): (r: (Swarm, nat))
    requires ValidOracle(draw) && ValidSwarm(s)
    ensures ValidSwarm(r.0) && !r.0.showingTime
    ensures Dispersed(r.0.particles)
    ensures r.1 == pos + 2
  {
    DisperseParticles(s.(showingTime := false), width, height, draw, pos)
  }

  /** The loop of `init_particles` from particle `i` on: each particle
      starts at a point drawn with margin 10 and no padding, at rest, with
      size zero and loose stiffness, attracted to the window centre. */
  function InitFrom(width: int, height: int, i: nat, draw: Oracle, pos: nat): (ps: seq<Particle>)
    requires ValidOracle(draw) && i <= NumParticles
    decreases NumParticles - i
    ensures |ps| == NumParticles - i
    ensures forall j :: 0 <= j < |ps| ==>
      ps[j] == NewParticle(RoughPoint(width, height, 10, 0, draw, pos + 2 * j).0,
                           Point((width / 2) as real, (height / 2) as real), NormalPower)
  {
    if i == NumParticles then []
    else
      var (start, n) := RoughPoint(width, height, 10, 0, draw, pos);
      var rest := InitFrom(width, height, i + 1, draw, n);
      [NewParticle(start, Point((width / 2) as real, (height / 2) as real), NormalPower)] + rest
  }

  /** A particle as `init_particles` leaves it: at rest, of size and goal
      size zero, loose and not swarming, attracted to the window centre,
      and at most 10 pixels (11 past the far edges) outside the window. */
  predicate Initial(p: Particle, width: int, height: int) {
    && p.dx == 0.0 && p.dy == 0.0 && p.size == 0.0 && p.goalSize == 0.0
    && p.power == NormalPower && !p.swarming
    && p.gravCenter == Point((width / 2) as real, (height / 2) as real)
    && -10.0 <= p.position.x <= (width + 11) as real
    && -10.0 <= p.position.y <= (height + 11) as real
  }

  /** `init_particles` on a `width` by `height` window, with `showing_time`
      at its initial 0. */
  function InitParticles(width: nat, height: nat, draw: Oracle, pos: nat): (r: (Swarm, nat))
    requires ValidOracle(draw)
    ensures ValidSwarm(r.0) && !r.0.showingTime
    ensures r.1 == pos + 2 * NumParticles
    ensures forall i :: 0 <= i < NumParticles ==> Initial(r.0.particles[i], width, height)
  {
    var ps := InitFrom(width, height, 0, draw, pos);
    forall i | 0 <= i < NumParticles
      ensures Initial(ps[i], width, height) && WellFormed(ps[i])
    {
      var (start, _) := RoughPoint(width, height, 10, 0, draw, pos + 2 * i);
      assert ps[i] == NewParticle(start, Point((width / 2) as real, (height / 2) as real), NormalPower);
    }
    (Swarm(ps, false), pos + 2 * NumParticles)
  }

  /** What reaches the swarm: an animation frame, the swarm and disperse
      timers, and a minute tick or a tap, both of which display the time
      `hour`:`minute` read from the clock. */
  datatype Event = Frame | SwarmTimer | DisperseTimer | ShowTime(hour: nat, minute: nat)

  /** The outside world the handlers consult: window size, the ten digit
      glyphs and the 24-hour preference. */
  datatype Env = Env(width: nat, height: nat, font: Font, is24h: bool)

  /** A clock reading: hour and minute of a `struct tm`. */
  predicate ValidEvent(e: Event) {
    e.ShowTime? ==> e.hour <= 23 && e.minute <= 59
  }

  /** An event that writes `showing_time`. */
  predicate SetsMode(e: Event) {
    e.ShowTime? || e.DisperseTimer?
  }

  /** One event handled. The swarm stays valid; showing the time sets the
      flag, the disperse timer clears it and disperses, and the other
      events keep it; the swarm timer does nothing while the time is
      shown. */
  ghost function Step(s: Swarm, e: Event, env: Env, draw: Oracle, pos: nat): (r: (Swarm, nat))
    requires ValidSwarm(s) && ValidOracle(draw) && ValidFont(env.font) && FontLive(env.font, draw)
    requires ValidEvent(e)
    ensures ValidSwarm(r.0)
    ensures pos <= r.1
    ensures SetsMode(e) ==> r.0.showingTime == e.ShowTime?
    ensures !SetsMode(e) ==> r.0.showingTime == s.showingTime
    ensures e.DisperseTimer? ==> Dispersed(r.0.particles)
    ensures e == SwarmTimer && s.showingTime ==> r.0 == s
  {
    match e
    case Frame => UpdateParticles(s, draw, pos)
    case SwarmTimer =>
      var (t, n, _) := HandleSwarmTimer(s, env.width, env.height, draw, pos);
      (t, n)
    case DisperseTimer => HandleDisperseTimer(s, env.width, env.height, draw, pos)
    case ShowTime(hour, minute) =>
      var (t, n, _) := DisplayTime(s, env.font, hour, minute, env.is24h, draw, pos);
      (t, n)
  }

  /** `end` is the display flag that the events leave behind when it was
      `start` before them: the flag written by the last event that writes
      it, or `start` when none does. */
  predicate LastMode(events: seq<Event>, start: bool, end: bool) {
    && ((forall k :: 0 <= k < |events| ==> !SetsMode(events[k])) ==> end == start)
    && forall k :: 0 <= k < |events| && SetsMode(events[k])
                   && (forall j :: k < j < |events| ==> !SetsMode(events[j])) ==>
         end == events[k].ShowTime?
  }

  /** Extending LastMode by one event at the front. */
  lemma LastModeStep(events: seq<Event>, start: bool, mid: bool, end: bool)
    requires |events| > 0
    requires SetsMode(events[0]) ==> mid == events[0].ShowTime?
    requires !SetsMode(events[0]) ==> mid == start
    requires LastMode(events[1..], mid, end)
    ensures LastMode(events, start, end)
  {
    var rest := events[1..];
    assert forall j :: 0 <= j < |rest| ==> rest[j] == events[j + 1];
    forall k | 0 <= k < |events| && SetsMode(events[k])
               && (forall j :: k < j < |events| ==> !SetsMode(events[j]))
      ensures end == events[k].ShowTime?
    {
      if k > 0 {
        assert rest[k - 1] == events[k];
      }
    }
  }

  /** A run of events from `s`, each handled with the draws left by the
      one before. The swarm stays valid, and `showing_time` ends as the
      last event that writes it left it, or as it started when none
      does. */
  ghost function Run(s: Swarm, events: seq<Event>, env: Env, draw: Oracle, pos: nat): (r: (Swarm, nat))
    requires ValidSwarm(s) && ValidOracle(draw) && ValidFont(env.font) && FontLive(env.font, draw)
    requires forall k :: 0 <= k < |events| ==> ValidEvent(events[k])
    decreases |events|
    ensures ValidSwarm(r.0)
    ensures pos <= r.1
    ensures LastMode(events, s.showingTime, r.0.showingTime)
  {
    if |events| == 0 then (s, pos)
    else
      var (t, n) := Step(s, events[0], env, draw, pos);
      var r := Run(t, events[1..], env, draw, n);
      LastModeStep(events, s.showingTime, t.showingTime, r.0.showingTime);
      r
  }

  /** No event makes a colon dot swarm: frames only clear the flag,
      relocation moves attractors only, dispersal clears it, and
      `display_time` retargets the groups, which stop at particle 135, and
      leaves the flag of the colon dots alone. */
  lemma StepKeepsColonCalm(s: Swarm, e: Event, env: Env, draw: Oracle, pos: nat)
    requires ValidSwarm(s) && ValidOracle(draw) && ValidFont(env.font) && FontLive(env.font, draw)
    requires ValidEvent(e)
    requires ColonCalm(s.particles)
    ensures ColonCalm(Step(s, e, env, draw, pos).0.particles)
  {
    match e
    case Frame =>
    case SwarmTimer =>
    case DisperseTimer =>
    case ShowTime(hour, minute) =>
      var r := DisplayTime(s, env.font, hour, minute, env.is24h, draw, pos);
      assert ShowsTime(s.particles, r.0.particles, env.font, TimeDigits(DisplayHour(hour, env.is24h), minute),
                       BitDraws(draw), r.2);
  }

  /** The colon dots never swarm: they start calm after `init_particles`
      and every run of events keeps them calm. */
  lemma {:induction false} RunKeepsColonCalm(s: Swarm, events: seq<Event>, env: Env, draw: Oracle, pos: nat)
    requires ValidSwarm(s) && ValidOracle(draw) && ValidFont(env.font) && FontLive(env.font, draw)
    requires forall k :: 0 <= k < |events| ==> ValidEvent(events[k])
    requires ColonCalm(s.particles)
    decreases |events|
    ensures ColonCalm(Run(s, events, env, draw, pos).0.particles)
  {
    if |events| > 0 {
      var (t, n) := Step(s, events[0], env, draw, pos);
      StepKeepsColonCalm(s, events[0], env, draw, pos);
      RunKeepsColonCalm(t, events[1..], env, draw, n);
    }
  }

  /** `init_particles` leaves the colon dots calm, so after it no run of
      events ever makes them swarm. */
  lemma ColonNeverSwarms(env: Env, events: seq<Event>, draw: Oracle, pos: nat)
    requires ValidOracle(draw) && ValidFont(env.font) && FontLive(env.font, draw)
    requires forall k :: 0 <= k < |events| ==> ValidEvent(events[k])
    ensures var (s, n) := InitParticles(env.width, env.height, draw, pos);
      ColonCalm(Run(s, events, env, draw, n).0.particles)
  {
    var (s, n) := InitParticles(env.width, env.height, draw, pos);
    assert Initial(s.particles[ColonTop], env.width, env.height);
    assert Initial(s.particles[ColonBottom], env.width, env.height);
    RunKeepsColonCalm(s, events, env, draw, n);
  }

  /** Showing the time right after a dispersal: the three floaters keep
      wandering (loose, goal size zero, not swarming) and the two colon
      dots are tight but, unlike the digit particles, not swarming. */
  lemma DisplayAfterDispersal(s: Swarm, env: Env, hour: nat, minute: nat, draw: Oracle, pos: nat)
    requires ValidSwarm(s) && ValidOracle(draw) && ValidFont(env.font) && FontLive(env.font, draw)
    requires hour <= 23 && minute <= 59
    ensures var (t, n) := HandleDisperseTimer(s, env.width, env.height, draw, pos);
      var u := DisplayTime(t, env.font, hour, minute, env.is24h, draw, n).0;
      && (forall i :: NumParticles - Save <= i < ColonTop ==>
            u.particles[i].power == NormalPower && u.particles[i].goalSize == 0.0 && !u.particles[i].swarming)
      && u.particles[ColonTop].power == TightPower && !u.particles[ColonTop].swarming
      && u.particles[ColonBottom].power == TightPower && !u.particles[ColonBottom].swarming
  {
    var (t, n) := HandleDisperseTimer(s, env.width, env.height, draw, pos);
    var r := DisplayTime(t, env.font, hour, minute, env.is24h, draw, n);
    assert ShowsTime(t.particles, r.0.particles, env.font, TimeDigits(DisplayHour(hour, env.is24h), minute),
                     BitDraws(draw), r.2);
  }
}

=== FILE: layout.dfy ===
/**
 The time layout, `get_display_hour` and `display_time`: the hour is put in
 12- or 24-hour form, hour and minute are split into decimal digits, and
 the particle array is divided into one group per shown digit, two colon
 particles and three free floaters.
 */
module Layout {
  import opened Random
  import opened Particles
  import opened Sampler

  /** Particles kept out of the digit groups: two colon dots and three
      floaters. */
  const Save: int := 5
  /** The y offset of every digit glyph and the y of the two colon dots. */
  const DigitTop: int := 60
  const ColonTopY: real := 69.0
  const ColonBottomY: real := 89.0
  /** Indices of the top and bottom colon dots. */
  const ColonTop: int := NumParticles - 2
  const ColonBottom: int := NumParticles - 1

  /** `get_display_hour`: the hour as shown, with the 24-hour preference
      `clock_is_24h_style()` passed in. The argument is an `unsigned
      short`. */
  function DisplayHour(hour: nat, is24h: bool): (r: nat)
    requires hour < 0x1_0000
    ensures is24h ==> r == hour
    ensures !is24h ==> 1 <= r <= 12 && r % 12 == hour % 12
  {
    if is24h then hour
    else
      var h := hour % 12;
      if h != 0 then h else 12
  }

  /** The usual reading of a 24-hour clock hour on a 12-hour dial. */
  function TwelveHour(hour: nat): nat
    requires hour < 24
  {
    if hour == 0 then 12 else if hour <= 12 then hour else hour - 12
  }

  /** On the hours of a day, 12-hour mode agrees with the dial reading:
      midnight and noon show 12, and 13 o'clock shows 1. */
  lemma DisplayHourTwelve(hour: nat)
    requires hour < 24
    ensures DisplayHour(hour, false) == TwelveHour(hour)
    ensures DisplayHour(0, false) == 12 && DisplayHour(12, false) == 12 && DisplayHour(13, false) == 1
  {
  }

  /** The four digits shown. */
  datatype Digits = Digits(hourTens: int, hourOnes: int, minuteTens: int, minuteOnes: int)

  /** The decimal split `hour / 10`, `hour % 10`, `min / 10`, `min % 10` of
      non-negative values. */
  function TimeDigits(hour: nat, minute: nat): (d: Digits)
    ensures 10 * d.hourTens + d.hourOnes == hour && 0 <= d.hourOnes <= 9 && 0 <= d.hourTens
    ensures 10 * d.minuteTens + d.minuteOnes == minute && 0 <= d.minuteOnes <= 9 && 0 <= d.minuteTens
  {
    Digits(hour / 10, hour % 10, minute / 10, minute % 10)
  }

  predicate ValidDigits(d: Digits) {
    && 0 <= d.hourTens <= 9 && 0 <= d.hourOnes <= 9
    && 0 <= d.minuteTens <= 9 && 0 <= d.minuteOnes <= 9
  }

  /** The digits of a time of day name glyphs of the font, in either hour
      mode: the hour tens is at most 2 and the minute tens at most 5. */
  lemma DigitsInRange(hour: nat, minute: nat, is24h: bool)
    requires hour <= 23 && minute <= 59
    ensures var d := TimeDigits(DisplayHour(hour, is24h), minute);
      ValidDigits(d) && d.hourTens <= 2 && d.minuteTens <= 5
  {
  }

  /** A digit group: particles [start, end) form the glyph of `digit`
      placed at x offset `ox`. */
  datatype Slot = Slot(digit: int, start: int, end: int, ox: int)

  /** The `swarm_to_digit` calls of `display_time` as slots: the
      NumParticles - Save digit particles are split into three groups when
      the hour has a single digit and into four otherwise, the last group
      running up to NumParticles - Save. */
  function Slots(d: Digits): seq<Slot> {
    if d.hourTens == 0 then
      var perGroup := (NumParticles - Save) / 3;
      [Slot(d.hourOnes, 0, perGroup, 25),
       Slot(d.minuteTens, perGroup, perGroup * 2, 65),
       Slot(d.minuteOnes, perGroup * 2, NumParticles - Save, 95)]
    else
      var perGroup := (NumParticles - Save) / 4;
      [Slot(d.hourTens, 0, perGroup, 10),
       Slot(d.hourOnes, perGroup, perGroup * 2, 40),
       Slot(d.minuteTens, perGroup * 2, perGroup * 3, 80),
       Slot(d.minuteOnes, perGroup * 3, NumParticles - Save, 110)]
  }

  /** The group boundaries: three groups of 45, or three of 33 followed by
      one of 36. */
  lemma SlotBoundaries(d: Digits)
    ensures d.hourTens == 0 ==>
      Slots(d) == [Slot(d.hourOnes, 0, 45, 25), Slot(d.minuteTens, 45, 90, 65), Slot(d.minuteOnes, 90, 135, 95)]
    ensures d.hourTens != 0 ==>
      Slots(d) == [Slot(d.hourTens, 0, 33, 10), Slot(d.hourOnes, 33, 66, 40),
                   Slot(d.minuteTens, 66, 99, 80), Slot(d.minuteOnes, 99, 135, 110)]
  {
  }

  /** For digits of the font the slots are valid. */
  lemma SlotsValid(d: Digits)
    requires ValidDigits(d)
    ensures ValidSlots(Slots(d))
  {
    SlotBoundaries(d);
  }

  /** The x of both colon dots. */
  function ColonX(d: Digits): real {
    if d.hourTens == 0 then 57.0 else 68.0
  }

  /** The groups tile the particles below NumParticles - Save: every such
      index lies in exactly one group, and the groups hold nothing else. */
  lemma SlotsTile(d: Digits, i: int)
    ensures 0 <= i < NumParticles - Save <==> Covered(Slots(d), i)
    ensures forall k, l :: 0 <= k < l < |Slots(d)| ==>
      !(Slots(d)[k].start <= i < Slots(d)[k].end && Slots(d)[l].start <= i < Slots(d)[l].end)
  {
    var sl := Slots(d);
    if 0 <= i < NumParticles - Save {
      var k := if i < sl[0].end then 0 else if i < sl[1].end then 1 else if i < sl[2].end then 2 else 3;
      assert sl[k].start <= i < sl[k].end;
    }
  }

  /** Every particle `i` of slot `sl` is retargeted to its digit's glyph
      with the draws of window `ws[i]`. */
  ghost predicate SlotShown(before: seq<Particle>, after: seq<Particle>, font: Font, sl: Slot,
                            bits: nat -> int, ws: seq<Window>)
    requires |before| == |after| == |ws| == NumParticles && |font| == 10
  {
    && 0 <= sl.digit < 10
    && 0 <= sl.start <= sl.end <= NumParticles
    && forall i :: sl.start <= i < sl.end ==>
         Retargeted(before[i], after[i], font[sl.digit], sl.ox, DigitTop, bits, ws[i])
  }

  /** The windows of the particles in the slots lie in [lo, hi) and follow
      one another in particle order, so no two share a draw. */
  predicate WindowsWithin(slots: seq<Slot>, ws: seq<Window>, lo: nat, hi: nat)
    requires |ws| == NumParticles
  {
    && (forall i :: 0 <= i < NumParticles && Covered(slots, i) ==> lo <= ws[i].lo < ws[i].hi <= hi)
    && (forall i, j :: 0 <= i < j < NumParticles && Covered(slots, i) && Covered(slots, j) ==>
          ws[i].hi <= ws[j].lo)
  }

  /** The windows of `a` inside [start, end) and those of `b` elsewhere. */
  function Splice(a: seq<Window>, b: seq<Window>, start: int, end: int): (c: seq<Window>)
    requires |a| == |b|
    ensures |c| == |a|
    ensures forall i :: 0 <= i < |c| ==> c[i] == if start <= i < end then a[i] else b[i]
  {
    seq(|a|, i requires 0 <= i < |a| => if start <= i < end then a[i] else b[i])
  }

  /** One colon dot: attractor (x, y), tight stiffness and the full goal
      size; nothing else changes, `swarming` included. A well-formed particle
      stays well formed, and the dot keeps its place and speed, so a particle
      not swarming keeps drifting under the cap of 1 per axis. */
  function ColonDot(p: Particle, x: real, y: real): (q: Particle)
    ensures q.gravCenter == Point(x, y) && q.power == TightPower && q.goalSize == MaxSize
    ensures q == p.(gravCenter := q.gravCenter, power := q.power, goalSize := q.goalSize)
    ensures WellFormed(p) ==> WellFormed(q)
    ensures q.swarming == p.swarming && q.position == p.position && q.dx == p.dx && q.dy == p.dy
  {
    p.(gravCenter := Point(x, y), power := TightPower, goalSize := 3.0)
  }

  /** The two colon particles are not swarming. */
  predicate ColonCalm(ps: seq<Particle>) {
    |ps| == NumParticles && !ps[ColonTop].swarming && !ps[ColonBottom].swarming
  }

  /** What `display_time` promises about the particles for digits `d`. */
  ghost predicate ShowsTime(before: seq<Particle>, after: seq<Particle>, font: Font, d: Digits,
                            bits: nat -> int, ws: seq<Window>)
    requires |before| == |after| == |ws| == NumParticles && |font| == 10
  {
    && (forall k :: 0 <= k < |Slots(d)| ==> SlotShown(before, after, font, Slots(d)[k], bits, ws))
    && (forall i :: NumParticles - Save <= i < ColonTop ==> after[i] == before[i])
    && after[ColonTop] == ColonDot(before[ColonTop], ColonX(d), ColonTopY)
    && after[ColonBottom] == ColonDot(before[ColonBottom], ColonX(d), ColonBottomY)
  }

  /** The two colon dots of `display_time` at x `x`: every particle keeps
      its `swarming` flag and its well-formedness, and the colon dots are
      still calm when they were. */
  function Colon(ps: seq<Particle>, x: real): (qs: seq<Particle>)
    requires |ps| == NumParticles
    ensures |qs| == NumParticles
    ensures forall i :: 0 <= i < ColonTop ==> qs[i] == ps[i]
    ensures qs[ColonTop] == ColonDot(ps[ColonTop], x, ColonTopY)
    ensures qs[ColonBottom] == ColonDot(ps[ColonBottom], x, ColonBottomY)
    ensures forall i :: 0 <= i < NumParticles ==> qs[i].swarming == ps[i].swarming
    ensures (forall i :: 0 <= i < NumParticles ==> WellFormed(ps[i])) ==>
      forall i :: 0 <= i < NumParticles ==> WellFormed(qs[i])
    ensures ColonCalm(ps) ==> ColonCalm(qs)
  {
    ps[ColonTop := ColonDot(ps[ColonTop], x, ColonTopY)]
      [ColonBottom := ColonDot(ps[ColonBottom], x, ColonBottomY)]
  }

  /** Particle `i` belongs to one of the slots. */
  predicate Covered(slots: seq<Slot>, i: int) {
    exists k :: 0 <= k < |slots| && slots[k].start <= i < slots[k].end
  }

  /** Slots naming glyphs of the font, within the particle array, in
      increasing order and pairwise disjoint. */
  predicate ValidSlots(slots: seq<Slot>) {
    && (forall k :: 0 <= k < |slots| ==>
          0 <= slots[k].digit < 10 && 0 <= slots[k].start <= slots[k].end <= NumParticles)
    && (forall k, l :: 0 <= k < l < |slots| ==> slots[k].end <= slots[l].start)
  }

  /** The calls to `swarm_to_digit` of `display_time`, one per slot, in
      order: every slot is shown, each particle with the draws of its own
      window inside [pos, r.1), and every particle outside the slots is
      left as it was. */
  ghost function ShowSlots(ps: seq<Particle>, font: Font, slots: seq<Slot>, draw: Oracle, pos: nat)
    : (r: (seq<Particle>, nat, seq<Window>))
    requires ValidFont(font) && ValidOracle(draw) && FontLive(font, draw)
    requires |ps| == NumParticles && ValidSlots(slots)
    decreases |slots|
    ensures |r.0| == NumParticles && |r.2| == NumParticles
    ensures pos <= r.1
    ensures forall k :: 0 <= k < |slots| ==> SlotShown(ps, r.0, font, slots[k], BitDraws(draw), r.2)
    ensures WindowsWithin(slots, r.2, pos, r.1)
    ensures forall i :: 0 <= i < NumParticles && !Covered(slots, i) ==> r.0[i] == ps[i]
  {
    if |slots| == 0 then (ps, pos, seq(NumParticles, _ => Window(pos, pos)))
    else
      var sl := slots[0];
      var (ps1, n1, w1) := SwarmToDigit(ps, font, sl.digit, sl.start, sl.end, sl.ox, DigitTop, draw, pos);
      var rest := slots[1..];
      RestValid(slots);
      var r := ShowSlots(ps1, font, rest, draw, n1);
      var ws := Splice(w1, r.2, sl.start, sl.end);
      ShowStep(ps, ps1, r.0, font, slots, BitDraws(draw), w1, r.2, ws);
      WindowsStep(slots, w1, r.2, ws, pos, n1, r.1);
      (r.0, r.1, ws)
  }

  /** Dropping the first slot keeps the slots valid. */
  lemma RestValid(slots: seq<Slot>)
    requires ValidSlots(slots) && |slots| > 0
    ensures ValidSlots(slots[1..])
  {
    var rest := slots[1..];
    forall k, l | 0 <= k < l < |rest|
      ensures rest[k].end <= rest[l].start
    {
      assert rest[k] == slots[k + 1] && rest[l] == slots[l + 1];
    }
  }

  /** One step of ShowSlots: the first slot shown from `ps` to `mid`, the
      other slots from `mid` to `qs`, make every slot shown from `ps` to
      `qs` with the spliced windows and leave the particles outside all
      slots alone. */
  lemma ShowStep(ps: seq<Particle>, mid: seq<Particle>, qs: seq<Particle>, font: Font, slots: seq<Slot>,
                 bits: nat -> int, w1: seq<Window>, w2: seq<Window>, ws: seq<Window>)
    requires |ps| == |mid| == |qs| == |w1| == |w2| == NumParticles && |font| == 10
    requires ValidSlots(slots) && |slots| > 0
    requires ws == Splice(w1, w2, slots[0].start, slots[0].end)
    requires SlotShown(ps, mid, font, slots[0], bits, w1)
    requires forall i :: 0 <= i < NumParticles && !(slots[0].start <= i < slots[0].end) ==> mid[i] == ps[i]
    requires forall k :: 0 <= k < |slots[1..]| ==> SlotShown(mid, qs, font, slots[1..][k], bits, w2)
    requires forall i :: 0 <= i < NumParticles && !Covered(slots[1..], i) ==> qs[i] == mid[i]
    ensures forall k :: 0 <= k < |slots| ==> SlotShown(ps, qs, font, slots[k], bits, ws)
    ensures forall i :: 0 <= i < NumParticles && !Covered(slots, i) ==> qs[i] == ps[i]
  {
    var sl, rest := slots[0], slots[1..];
    assert forall l :: 0 <= l < |rest| ==> rest[l] == slots[l + 1];
    forall k | 0 <= k < |slots|
      ensures SlotShown(ps, qs, font, slots[k], bits, ws)
    {
      if k == 0 {
        forall i | sl.start <= i < sl.end
          ensures qs[i] == mid[i] && ws[i] == w1[i]
        {
          assert !Covered(rest, i);
        }
        ShownLater(ps, mid, qs, font, sl, bits, w1, ws);
      } else {
        assert slots[k] == rest[k - 1];
        assert sl.end <= slots[k].start;
        ShownEarlier(ps, mid, qs, font, slots[k], bits, w2, ws);
      }
    }
    forall i | 0 <= i < NumParticles && !Covered(slots, i)
      ensures qs[i] == ps[i]
    {
      assert !Covered(rest, i);
    }
  }

  /** The windows of one step of ShowSlots: those of the first slot lie in
      [pos, mid) and follow one another, those of the other slots in
      [mid, hi); spliced, they lie in [pos, hi) and follow one another. */
  lemma WindowsStep(slots: seq<Slot>, w1: seq<Window>, w2: seq<Window>, ws: seq<Window>,
                    pos: nat, mid: nat, hi: nat)
    requires |w1| == |w2| == NumParticles
    requires ValidSlots(slots) && |slots| > 0
    requires ws == Splice(w1, w2, slots[0].start, slots[0].end)
    requires forall i :: slots[0].start <= i < slots[0].end ==> pos <= w1[i].lo < w1[i].hi <= mid
    requires forall i, j :: slots[0].start <= i < j < slots[0].end ==> w1[i].hi <= w1[j].lo
    requires WindowsWithin(slots[1..], w2, mid, hi)
    requires pos <= mid <= hi
    ensures WindowsWithin(slots, ws, pos, hi)
  {
    var sl, rest := slots[0], slots[1..];
    assert forall l :: 0 <= l < |rest| ==> rest[l] == slots[l + 1];
    forall i | 0 <= i < NumParticles && Covered(slots, i) && !(sl.start <= i < sl.end)
      ensures Covered(rest, i) && sl.end <= i
    {
      var k :| 0 <= k < |slots| && slots[k].start <= i < slots[k].end;
      assert k != 0;
      assert slots[k] == rest[k - 1];
      assert sl.end <= slots[k].start;
    }
  }

  /** A shown slot stays shown when a later step leaves its particles
      and their windows alone. */
  lemma ShownLater(ps: seq<Particle>, mid: seq<Particle>, qs: seq<Particle>, font: Font, sl: Slot,
                   bits: nat -> int, w: seq<Window>, v: seq<Window>)
    requires |ps| == |mid| == |qs| == |w| == |v| == NumParticles && |font| == 10
    requires SlotShown(ps, mid, font, sl, bits, w)
    requires forall i :: sl.start <= i < sl.end ==> qs[i] == mid[i] && v[i] == w[i]
    ensures SlotShown(ps, qs, font, sl, bits, v)
  {
  }

  /** A slot shown by a later step is shown from the start when the earlier
      steps left its particles and their windows alone. */
  lemma ShownEarlier(ps: seq<Particle>, mid: seq<Particle>, qs: seq<Particle>, font: Font, sl: Slot,
                     bits: nat -> int, w: seq<Window>, v: seq<Window>)
    requires |ps| == |mid| == |qs| == |w| == |v| == NumParticles && |font| == 10
    requires SlotShown(mid, qs, font, sl, bits, w)
    requires forall i :: sl.start <= i < sl.end ==> mid[i] == ps[i] && v[i] == w[i]
    ensures SlotShown(ps, qs, font, sl, bits, v)
  {
  }

  /** `display_time` for a time of day `hour`:`minute`: sets `showing_time`,
      sends each digit group to its glyph in turn and places the colon. The
      swarm stays valid and exactly the layout of `Slots` is shown. */
  ghost function DisplayTime(s: Swarm, font: Font, hour: nat, minute: nat, is24h: bool,
                             draw: Oracle, pos: nat): (r: (Swarm, nat, seq<Window>))
    requires ValidSwarm(s) && ValidFont(font) && ValidOracle(draw) && FontLive(font, draw)
    requires hour <= 23 && minute <= 59
    ensures ValidSwarm(r.0) && |r.2| == NumParticles
    ensures r.0.showingTime
    ensures ShowsTime(s.particles, r.0.particles, font, TimeDigits(DisplayHour(hour, is24h), minute),
                      BitDraws(draw), r.2)
    ensures WindowsWithin(Slots(TimeDigits(DisplayHour(hour, is24h), minute)), r.2, pos, r.1)
    ensures pos <= r.1
  {
    var d := TimeDigits(DisplayHour(hour, is24h), minute);
    DigitsInRange(hour, minute, is24h);
    SlotsValid(d);
    var (shown, n, ws) := ShowSlots(s.particles, font, Slots(d), draw, pos);
    var qs := Colon(shown, ColonX(d));
    DisplayKeepsValid(s.particles, shown, qs, font, d, BitDraws(draw), ws);
    (Swarm(qs, true), n, ws)
  }

  /** The particles after the digit groups and the colon: the layout is
      shown and every particle is still well formed. */
  lemma DisplayKeepsValid(ps: seq<Particle>, shown: seq<Particle>, qs: seq<Particle>, font: Font, d: Digits,
                          bits: nat -> int, ws: seq<Window>)
    requires |ps| == |shown| == |qs| == |ws| == NumParticles && |font| == 10
    requires forall i :: 0 <= i < NumParticles ==> WellFormed(ps[i])
    requires forall k :: 0 <= k < |Slots(d)| ==> SlotShown(ps, shown, font, Slots(d)[k], bits, ws)
    requires forall i :: 0 <= i < NumParticles && !Covered(Slots(d), i) ==> shown[i] == ps[i]
    requires qs == Colon(shown, ColonX(d))
    ensures ShowsTime(ps, qs, font, d, bits, ws)
    ensures forall i :: 0 <= i < NumParticles ==> WellFormed(qs[i])
  {
    var slots := Slots(d);
    forall i | NumParticles - Save <= i < NumParticles
      ensures shown[i] == ps[i]
    {
      assert !Covered(slots, i);
    }
    forall k | 0 <= k < |slots|
      ensures SlotShown(ps, qs, font, slots[k], bits, ws)
    {
      assert slots[k].end <= NumParticles - Save;
    }
    forall i | 0 <= i < NumParticles
      ensures WellFormed(shown[i])
    {
      if Covered(slots, i) {
        var k :| 0 <= k < |slots| && slots[k].start <= i < slots[k].end;
        assert SlotShown(ps, shown, font, slots[k], bits, ws);
        RetargetedKeepsWellFormed(ps[i], shown[i], font[slots[k].digit], slots[k].ox, DigitTop, bits, ws[i]);
      }
    }
  }
}

=== FILE: particles.dfy ===
/**
 The particle store of the fireflies swarm: the constants of the program,
 the particle record and the swarm aggregate (the global particle array
 together with the `showing_time` flag).
 */
module Particles {

  const NumParticles: int := 140
  /** A swarming particle stops swarming once its squared distance to its
      attractor drops below this value. */
  const GoalDistance: real := 16.0
  /** Loose wander stiffness and tight formation stiffness ("power"). */
  const NormalPower: real := 400.0
  const TightPower: real := 1.0
  /** Speed caps of a particle that is not swarming and of one that is. */
  const MaxSpeed: real := 1.0
  const SwarmSpeed: real := 2.0
  const Jitter: real := 0.5
  const MaxSize: real := 3.0
  const MinSize: real := 0.0

  datatype Point = Point(x: real, y: real)

  /** One firefly: position, attractor (`grav_center`), velocity (`dx`,
      `dy`), stiffness (`power`), rendered radius with its goal and easing
      rate (`size`, `goal_size`, `ds`) and the converging flag. */
  datatype Particle = Particle(
    position: Point,
    gravCenter: Point,
    dx: real,
    dy: real,
    power: real,
    size: real,
    goalSize: real,
    ds: real,
    swarming: bool)

  /** The `FParticle(px, py, gx, gy, power)` constructor: at rest, of size
      zero and not swarming. */
  function NewParticle(start: Point, goal: Point, power: real): (p: Particle)
    ensures p.position == start && p.gravCenter == goal && p.power == power
    ensures p.dx == 0.0 && p.dy == 0.0 && p.ds == 0.0
    ensures p.size == 0.0 && p.goalSize == 0.0 && !p.swarming
    ensures power == NormalPower || power == TightPower ==> WellFormed(p)
  {
    Particle(start, goal, 0.0, 0.0, power, 0.0, 0.0, 0.0, false)
  }

  /** The global particle array and the `showing_time` flag (an `int` in the
      program that is only ever 0 or 1). */
  datatype Swarm = Swarm(particles: seq<Particle>, showingTime: bool)

  function Min(a: int, b: int): (m: int)
    ensures m <= a && m <= b && (m == a || m == b)
  {
    if a < b then a else b
  }

  /** The pair of `if` statements that snap a value into [lo, hi]. */
  function Clamp(x: real, lo: real, hi: real): (r: real)
    requires lo <= hi
    ensures lo <= r <= hi
    ensures lo <= x <= hi ==> r == x
    ensures x < lo ==> r == lo
    ensures hi < x ==> r == hi
  {
    if x > hi then hi else if x < lo then lo else x
  }

  /** The speed cap that applies to a particle. */
  function SpeedCap(swarming: bool): real {
    if swarming then SwarmSpeed else MaxSpeed
  }

  /** What holds of every particle at every moment: its stiffness is one of
      the two regimes, its size lies in [MinSize, MaxSize] and no velocity
      component exceeds the larger speed cap. */
  predicate WellFormed(p: Particle) {
    && (p.power == NormalPower || p.power == TightPower)
    && MinSize <= p.size <= MaxSize
    && -SwarmSpeed <= p.dx <= SwarmSpeed
    && -SwarmSpeed <= p.dy <= SwarmSpeed
  }

  /** Exactly NumParticles particles, each well formed. */
  predicate ValidSwarm(s: Swarm) {
    && |s.particles| == NumParticles
    && forall i :: 0 <= i < |s.particles| ==> WellFormed(s.particles[i])
  }
}

=== FILE: physics.dfy ===
/**
 The physics integrator: `update_particle` advances one particle by one
 animation step and `update_particles_layer` runs it over the whole array.

 Arithmetic is over `real`: float rounding, and the exact effect of the
 0.999 damping, of the division by `power` and of the randomised easing
 rate, are not modelled. What is modelled exactly is the order and the
 number of random draws, the branch structure, the velocity and size
 clamps, the swarming flag, and the program's use of the integer `abs` on
 floating values, whose argument is truncated toward zero.
 */
module Physics {
  import opened Random
  import opened Particles

  /** Probability thresholds of a jitter kick and of a blink. */
  const JitterChance: real := 0.4
  const BlinkChance: real := 0.0008

  /** The position of the first draw after the jitter block: one draw
      decides on the kick, and a kick draws one value per axis. */
  function AfterJitter(draw: Oracle, pos: nat): (n: nat)
    ensures n == pos + 1 || n == pos + 3
    ensures n == pos + 3 <==> draw(pos) < JitterChance
  {
    if draw(pos) < JitterChance then pos + 3 else pos + 1
  }

  /** Squared distance to the attractor is below GOAL_DISTANCE. */
  predicate CloseToGoal(p: Particle) {
    var ex := p.position.x - p.gravCenter.x;
    var ey := p.position.y - p.gravCenter.y;
    ex * ex + ey * ey < GoalDistance
  }

  /** The blink rule of a particle that is not showing the time, using the
      integer `abs`: a particle whose truncated size is 0 draws once and
      starts a blink with probability BlinkChance; a particle whose size
      truncates to 3 is sent back to size zero. Returns the new goal size
      and the next draw position. */
  function Blink(size: real, goalSize: real, draw: Oracle, pos: nat): (r: (real, nat))
    ensures 0.0 <= size < 1.0 ==>
      r == (if draw(pos) < BlinkChance then MaxSize else goalSize, pos + 1)
    ensures 1.0 <= size <= 2.0 ==> r == (goalSize, pos)
    ensures 2.0 < size <= 3.0 ==> r == (MinSize, pos)
  {
    var (g1, n) :=
      if Abs(Trunc(size - MinSize)) == 0 then
        (if draw(pos) < BlinkChance then MaxSize else goalSize, pos + 1)
      else (goalSize, pos);
    var g2 := if Abs(Trunc(size - MaxSize)) == 0 then MinSize else g1;
    (g2, n)
  }

  /** What one step promises about a particle: attractor and stiffness are
      kept, each velocity component is within the speed cap of the new
      swarming state, the size is within [MinSize, MaxSize], swarming only
      goes from true to false and does so exactly when the particle was
      close to its attractor, the position moves by the new velocity, the
      goal size is left alone while the time is shown, and a size within 1
      of its goal (which the truncating `abs` reads as 0) does not move. */
  predicate Stepped(p: Particle, q: Particle, showingTime: bool) {
    && q.gravCenter == p.gravCenter
    && q.power == p.power
    && -SpeedCap(q.swarming) <= q.dx <= SpeedCap(q.swarming)
    && -SpeedCap(q.swarming) <= q.dy <= SpeedCap(q.swarming)
    && MinSize <= q.size <= MaxSize
    && (q.swarming <==> p.swarming && !CloseToGoal(p))
    && q.position == Point(p.position.x + q.dx, p.position.y + q.dy)
    && (showingTime ==> q.goalSize == p.goalSize)
    && (MinSize <= p.size <= MaxSize && -1.0 < p.size - q.goalSize < 1.0 ==> q.size == p.size)
  }

  /** `update_particle`: returns the particle after one step and the
      position of the next unconsumed draw. */
  function UpdateParticle(p: Particle, showingTime: bool, draw: Oracle, pos: nat): (r: (Particle, nat))
    requires ValidOracle(draw)
    requires p.power != 0.0
    ensures Stepped(p, r.0, showingTime)
    ensures pos + 2 <= r.1 <= pos + 5
  {
    // random jitter
    var kick := draw(pos) < JitterChance;
    var jx := if kick then RandomInRangeF(-Jitter, Jitter, draw(pos + 1)) else 0.0;
    var jy := if kick then RandomInRangeF(-Jitter, Jitter, draw(pos + 2)) else 0.0;
    var n1 := AfterJitter(draw, pos);
    // gravitate towards the attractor
    var dx1 := p.dx + jx + -(p.position.x - p.gravCenter.x) / p.power;
    var dy1 := p.dy + jy + -(p.position.y - p.gravCenter.y) / p.power;
    // stop swarming once the goal is reached
    var swarming := p.swarming && !CloseToGoal(p);
    // damping, then snap to the speed cap
    var speed := SpeedCap(swarming);
    var dx := Clamp(dx1 * 0.999, -speed, speed);
    var dy := Clamp(dy1 * 0.999, -speed, speed);
    var position := Point(p.position.x + dx, p.position.y + dy);
    // size: blink only while the time is not shown, then ease
    var (goal, n2) := if showingTime then (p.goalSize, n1) else Blink(p.size, p.goalSize, draw, n1);
    var ease := RandomInRangeF(1000.0, 5000.0, draw(n2));
    var ds := p.ds + -(p.size - goal) / ease;
    var size1 := if Abs(Trunc(p.size - goal)) as real > 0.01 then p.size + ds else p.size;
    var size := Clamp(size1, MinSize, MaxSize);
    (Particle(position, p.gravCenter, dx, dy, p.power, size, goal, ds, swarming), n2 + 1)
  }

  /** A step keeps a well-formed particle well formed, and a particle that
      is not swarming after it moves no faster than MaxSpeed per axis. */
  lemma StepKeepsWellFormed(p: Particle, q: Particle, showingTime: bool)
    requires WellFormed(p) && Stepped(p, q, showingTime)
    ensures WellFormed(q)
    ensures !q.swarming ==> -MaxSpeed <= q.dx <= MaxSpeed && -MaxSpeed <= q.dy <= MaxSpeed
    ensures q.swarming ==> p.swarming
  {
  }

  /** The loop of `update_particles_layer` from particle `i` on; particles
      before `i` are already stepped. */
  function UpdateFrom(ps: seq<Particle>, i: nat, showingTime: bool, draw: Oracle, pos: nat): (r: (seq<Particle>, nat))
    requires ValidOracle(draw)
    requires i <= |ps|
    requires forall j :: i <= j < |ps| ==> ps[j].power != 0.0
    decreases |ps| - i
    ensures |r.0| == |ps|
    ensures forall j :: 0 <= j < i ==> r.0[j] == ps[j]
    ensures forall j :: i <= j < |ps| ==> Stepped(ps[j], r.0[j], showingTime)
    ensures pos + 2 * (|ps| - i) <= r.1 <= pos + 5 * (|ps| - i)
  {
    if i == |ps| then (ps, pos)
    else
      var (q, n) := UpdateParticle(ps[i], showingTime, draw, pos);
      UpdateFrom(ps[i := q], i + 1, showingTime, draw, n)
  }

  /** One animation frame: every particle, in index order, takes one step.
      The swarm stays valid and the display flag is untouched. */
  function UpdateParticles(s: Swarm, draw: Oracle, pos: nat): (r: (Swarm, nat))
    requires ValidOracle(draw)
    requires ValidSwarm(s)
    ensures ValidSwarm(r.0)
    ensures r.0.showingTime == s.showingTime
    ensures forall i :: 0 <= i < NumParticles ==>
      Stepped(s.particles[i], r.0.particles[i], s.showingTime)
    ensures pos + 2 * NumParticles <= r.1 <= pos + 5 * NumParticles
  {
    var (ps, n) := UpdateFrom(s.particles, 0, s.showingTime, draw, pos);
    forall i | 0 <= i < NumParticles
      ensures WellFormed(ps[i])
    {
      StepKeepsWellFormed(s.particles[i], ps[i], s.showingTime);
    }
    (Swarm(ps, s.showingTime), n)
  }
}

=== FILE: random.dfy ===
/**
 The random source of the fireflies swarm.

 The tinymt32 generator is seen from outside only through
 `tinymt32_generate_float01`, which yields values in [0, 1). The model
 represents the whole future of the generator as an `Oracle`: the n-th call
 returns `draw(n)`. Every operation that consumes randomness takes the
 oracle together with the position of its first unconsumed draw and returns
 the position after its last one, so the order in which the program
 consumes draws is part of the model.
 */
module Random {

  /** The n-th value returned by tinymt32_generate_float01. */
  type Oracle = nat -> real

  /** Every draw is a float in [0, 1). */
  ghost predicate ValidOracle(draw: Oracle) {
    forall n: nat :: 0.0 <= draw(n) < 1.0
  }

  /** C's conversion of a floating value to `int`: truncation toward zero. */
  function Trunc(x: real): (r: int)
    ensures 0.0 <= x ==> r as real <= x < r as real + 1.0
    ensures x < 0.0 ==> r as real - 1.0 < x <= r as real
    ensures r == 0 <==> -1.0 < x < 1.0
  {
    if x >= 0.0 then x.Floor else -((-x).Floor)
  }

  /** C's integer `abs`, which the program applies to floating values after
      they are truncated toward zero (see `Trunc`). */
  function Abs(n: int): (r: nat)
    ensures r == n || r == -n
  {
    if n < 0 then -n else n
  }

  /** `random_in_range(min, max)` given the draw `f` it consumes: the
      product `f * (max - min + 1)` is truncated toward zero. */
  function RandomInRange(lo: int, hi: int, f: real): (r: int)
    ensures 0.0 <= f < 1.0 && lo <= hi ==> lo <= r <= hi
    ensures 0.0 <= f < 1.0 && hi < lo ==> hi + 1 <= r <= lo
  {
    var n := hi - lo + 1;
    if 0.0 <= f < 1.0 && 0 < n then
      ScaledTruncBelow(f, n);
      lo + Trunc(f * n as real)
    else if 0.0 <= f < 1.0 && n < 0 then
      ScaledTruncAbove(f, n);
      lo + Trunc(f * n as real)
    else lo + Trunc(f * n as real)
  }

  /** Scaling a positive `n` by a draw in [0, 1) lands in [0, n). */
  lemma ScaleBelow(f: real, n: real)
    requires 0.0 <= f < 1.0 && 0.0 < n
    ensures 0.0 <= f * n < n
  {
    assert (1.0 - f) * n > 0.0;
  }

  /** Scaling a negative `n` by a draw in [0, 1) lands in (n, 0]. */
  lemma ScaleAbove(f: real, n: real)
    requires 0.0 <= f < 1.0 && n < 0.0
    ensures n < f * n <= 0.0
  {
    assert (1.0 - f) * (-n) > 0.0;
  }

  /** A draw scaled by a positive count truncates to an index below it. */
  lemma ScaledTruncBelow(f: real, n: int)
    requires 0.0 <= f < 1.0 && 0 < n
    ensures 0 <= Trunc(f * n as real) <= n - 1
  {
    ScaleBelow(f, n as real);
  }

  /** A draw scaled by a negative count truncates into (n, 0]. */
  lemma ScaledTruncAbove(f: real, n: int)
    requires 0.0 <= f < 1.0 && n < 0
    ensures n + 1 <= Trunc(f * n as real) <= 0
  {
    ScaleAbove(f, n as real);
  }

  /** Every value of a non-empty range is drawn by some float in [0, 1):
      `random_in_range` can reach each integer of [min, max]. */
  lemma RandomInRangeCovers(lo: int, hi: int, v: int)
    requires lo <= v <= hi
    ensures var f := (v - lo) as real / (hi - lo + 1) as real;
      0.0 <= f < 1.0 && RandomInRange(lo, hi, f) == v
  {
    var n := (hi - lo + 1) as real;
    var f := (v - lo) as real / n;
    assert f * n == (v - lo) as real;
    assert Trunc(f * n) == v - lo;
  }

  /** `random_in_rangef(min, max)` given the draw `f` it consumes. */
  function RandomInRangeF(lo: real, hi: real, f: real): (r: real)
    ensures 0.0 <= f < 1.0 && lo < hi ==> lo <= r < hi
  {
    var span := hi - lo;
    var p := f * span;
    if 0.0 <= f < 1.0 && lo < hi then
      ScaleBelow(f, span);
      lo + p
    else lo + p
  }

  /** Every value of [min, max) is drawn by some float in [0, 1). */
  lemma RandomInRangeFCovers(lo: real, hi: real, v: real)
    requires lo <= v < hi
    ensures var f := (v - lo) / (hi - lo);
      0.0 <= f < 1.0 && RandomInRangeF(lo, hi, f) == v
  {
    var span := hi - lo;
    var f := (v - lo) / span;
    DivBelow(v - lo, span);
    assert RandomInRangeF(lo, hi, f) == lo + f * span;
  }

  /** A value in [0, n) divided by n is a float in [0, 1) that scales
      back to the value. */
  lemma DivBelow(a: real, n: real)
    requires 0.0 <= a < n
    ensures 0.0 <= a / n < 1.0 && a / n * n == a
  {
  }
}

=== FILE: sampler.dfy ===
/**
 The glyph sampler, `swarm_to_digit`: every particle of an index range is
 sent to a randomly chosen pixel of a digit bitmap and switched to tight
 formation.

 A glyph is a packed 1-bit bitmap: `height` rows of `rowSizeBytes` bytes,
 pixel column `c` of a row being bit `c % 8` (least significant first) of
 byte `c / 8` of that row. Per particle the program
   1. draws byte indices until it hits a non-zero byte (an unbounded loop),
   2. draws a bit position of that byte, redrawing while the bit is clear,
      at most nine times,
   3. decodes byte index and bit position into a row and a column,
   4. draws a goal size in [2, 3.5).
 */
module Sampler {
  import opened Random
  import opened Particles

  datatype Glyph = Glyph(pixels: seq<bv8>, rowSizeBytes: nat, height: nat)

  /** The ten digit bitmaps `number_bitmaps`, indexed by digit. */
  type Font = seq<Glyph>

  /** A non-empty bitmap whose pixel data holds exactly its rows. */
  predicate ValidGlyph(g: Glyph) {
    g.rowSizeBytes > 0 && g.height > 0 && |g.pixels| == g.rowSizeBytes * g.height
  }

  predicate ValidFont(font: Font) {
    |font| == 10 && forall d :: 0 <= d < 10 ==> ValidGlyph(font[d])
  }

  /** Bit `bit` of `pixel`, counting from the least significant one. */
  predicate BitSet(pixel: bv8, bit: int)
    decreases bit
  {
    0 <= bit < 8 && if bit == 0 then pixel & 1 != 0 else BitSet(pixel >> 1, bit - 1)
  }

  /** The bit test of the program, `pixel & (1 << bit)` being non-zero. */
  lemma BitSetIsMask(pixel: bv8, bit: int)
    requires 0 <= bit < 8
    ensures BitSet(pixel, bit) <==> pixel & (1 << bit) != 0
  {
  }

  /** The index of the byte holding pixel (row, col). */
  function ByteOf(g: Glyph, row: int, col: int): int {
    row * g.rowSizeBytes + col / 8
  }

  /** Pixel (row, col) lies inside the bitmap. */
  predicate InBitmap(g: Glyph, row: int, col: int) {
    0 <= row < g.height && 0 <= col < g.rowSizeBytes * 8
    && 0 <= ByteOf(g, row, col) < |g.pixels|
  }

  /** Pixel (row, col) is foreground. */
  predicate PixelSet(g: Glyph, row: int, col: int) {
    InBitmap(g, row, col) && BitSet(g.pixels[ByteOf(g, row, col)], col % 8)
  }

  /** Pixel (row, col) lies in a byte holding at least one foreground pixel. */
  predicate ForegroundByte(g: Glyph, row: int, col: int) {
    InBitmap(g, row, col) && g.pixels[ByteOf(g, row, col)] != 0
  }

  /** `random_in_range(0, image_length)` with `image_length` one less than
      the number of bytes. */
  function ByteIndex(g: Glyph, f: real): (idx: int)
    ensures ValidGlyph(g) && 0.0 <= f < 1.0 ==> 0 <= idx < |g.pixels|
  {
    RandomInRange(0, g.rowSizeBytes * g.height - 1, f)
  }

  /** The k-th draw lands on a non-zero byte. */
  predicate ByteHit(g: Glyph, draw: Oracle, k: nat) {
    var idx := ByteIndex(g, draw(k));
    0 <= idx < |g.pixels| && g.pixels[idx] != 0
  }

  /** Some draw from position n on lands on a non-zero byte. */
  ghost predicate HitAfter(g: Glyph, draw: Oracle, n: nat) {
    exists k: nat :: n <= k && ByteHit(g, draw, k)
  }

  /** Infinitely many draws land on a non-zero byte: the condition under
      which every run of the byte loop, wherever it starts, terminates. */
  ghost predicate Live(g: Glyph, draw: Oracle) {
    forall n: nat :: HitAfter(g, draw, n)
  }

  ghost predicate FontLive(font: Font, draw: Oracle) {
    forall d :: 0 <= d < |font| ==> Live(font[d], draw)
  }

  datatype Pick = Pick(value: int, next: nat)

  /** The loop that guarantees a non-zero byte. The ghost `w` is a draw
      known to hit; it only bounds the search. The accepted index is the
      one drawn by the first hitting draw at or after `pos`. */
  function AcceptByte(g: Glyph, draw: Oracle, pos: nat, ghost w: nat): (r: Pick)
    requires ValidGlyph(g) && ValidOracle(draw)
    requires pos <= w && ByteHit(g, draw, w)
    decreases w - pos
    ensures pos < r.next <= w + 1
    ensures r.value == ByteIndex(g, draw(r.next - 1))
    ensures r.value < |g.pixels| && g.pixels[r.value] != 0
    ensures forall k :: pos <= k < r.next - 1 ==> !ByteHit(g, draw, k)
  {
    var idx := ByteIndex(g, draw(pos));
    if g.pixels[idx] != 0 then Pick(idx, pos + 1)
    else AcceptByte(g, draw, pos + 1, w)
  }

  /** `random_in_range(0, 7)` given its draw, with the range size 8
      folded in so that proofs about bit positions need not unfold the
      general range arithmetic. */
  function BitIndex(f: real): (b: int)
    ensures 0.0 <= f < 1.0 ==> 0 <= b < 8
  {
    if 0.0 <= f < 1.0 then
      ScaledTruncBelow(f, 8);
      Trunc(f * 8.0)
    else Trunc(f * 8.0)
  }

  /** The folded form draws the same bit position as the general one. */
  lemma BitIndexIsRandomInRange(f: real)
    ensures BitIndex(f) == RandomInRange(0, 7, f)
  {
  }

  /** The bit position `random_in_range(0, 7)` yields from each draw. */
  function BitDraws(draw: Oracle): nat -> int {
    (k: nat) => BitIndex(draw(k))
  }

  /** Every position of the stream names a bit of a byte. */
  ghost predicate BitsInRange(bits: nat -> int) {
    forall k: nat :: 0 <= bits(k) < 8
  }

  /** Every drawn bit position names a bit of a byte. */
  lemma BitDrawsInRange(draw: Oracle)
    requires ValidOracle(draw)
    ensures BitsInRange(BitDraws(draw))
  {
    forall k: nat
      ensures 0 <= BitDraws(draw)(k) < 8
    {
      var f := draw(k);
      assert 0.0 <= f < 1.0;
    }
  }

  /** The bounded retry loop from its test on, over the drawn bit positions
      `bits`: `bit` was drawn just before `pos` and `tries` counts down from
      8; the loop leaves through its condition on a set bit, or through the
      `break` once `tries` has gone below zero. */
  function RetryBit(pixel: bv8, bit: int, tries: int, bits: nat -> int, pos: nat): (r: Pick)
    requires -1 <= tries <= 8 && 0 < pos && bit == bits(pos - 1)
    decreases tries + 1
    ensures pos <= r.next <= pos + tries + 1
    ensures r.value == bits(r.next - 1)
    ensures forall k :: pos - 1 <= k < r.next - 1 ==> !BitSet(pixel, bits(k))
    ensures BitSet(pixel, r.value) || r.next == pos + tries + 1
  {
    if BitSet(pixel, bit) || tries < 0 then Pick(bit, pos)
    else RetryBit(pixel, bits(pos), tries - 1, bits, pos + 1)
  }

  /** Picks a bit of `pixel`: the first of at most ten drawn bit positions
      that is set, or the tenth when none is. */
  function PickBit(pixel: bv8, bits: nat -> int, pos: nat): (r: Pick)
    requires forall k: nat :: 0 <= bits(k) < 8
    ensures 0 <= r.value < 8
    ensures pos < r.next <= pos + 10
    ensures r.value == bits(r.next - 1)
    ensures forall k :: pos <= k < r.next - 1 ==> !BitSet(pixel, bits(k))
    ensures BitSet(pixel, r.value) || r.next == pos + 10
  {
    RetryBit(pixel, bits(pos), 8, bits, pos + 1)
  }

  /** When the picked bit is clear, all ten drawn bit positions were. */
  lemma PickBitMissed(pixel: bv8, bits: nat -> int, pos: nat)
    requires forall k: nat :: 0 <= bits(k) < 8
    requires !BitSet(pixel, PickBit(pixel, bits, pos).value)
    ensures PickBit(pixel, bits, pos).next == pos + 10
    ensures forall k: nat :: pos <= k < pos + 10 ==> !BitSet(pixel, bits(k))
  {
    var r := PickBit(pixel, bits, pos);
    assert !BitSet(pixel, bits(pos + 9));
  }

  datatype Pixel = Pixel(row: int, col: int)

  /** Turns a byte index and a bit position into a pixel through the bit
      offset `idx * 8 + bit` and the row stride in bits. */
  function Decode(rowSizeBytes: nat, idx: nat, bit: nat): (px: Pixel)
    requires rowSizeBytes > 0
  {
    var bitPos := idx * 8 + bit;
    var rowSizeBits := rowSizeBytes * 8;
    Pixel(bitPos / rowSizeBits, bitPos % rowSizeBits)
  }

  /** Division with remainder is unique. */
  lemma DivModUnique(a: int, d: int, q: int, m: int)
    requires 0 < d && 0 <= m < d && a == q * d + m
    ensures a / d == q && a % d == m
  {
    var q', m' := a / d, a % d;
    assert q' * d + m' == q * d + m;
    if q' < q {
      assert (q - q') * d == q * d - q' * d;
      MulAtLeast(q - q', d);
    } else if q' > q {
      assert (q' - q) * d == q' * d - q * d;
      MulAtLeast(q' - q, d);
    }
  }

  lemma MulAtLeast(t: int, d: int)
    requires t >= 1 && d > 0
    ensures t * d >= d
  {
    assert t * d == d + (t - 1) * d;
  }

  /** The bit offset `idx * 8 + bit` splits at the row stride `rsb * 8`
      into the row `idx / rsb` and the column `(idx % rsb) * 8 + bit`. */
  lemma SplitBitOffset(rsb: int, idx: int, bit: int)
    requires 0 < rsb && 0 <= idx && 0 <= bit < 8
    ensures (idx * 8 + bit) / (rsb * 8) == idx / rsb
    ensures (idx * 8 + bit) % (rsb * 8) == (idx % rsb) * 8 + bit
  {
    var q, m := idx / rsb, idx % rsb;
    assert idx == q * rsb + m;
    assert q * (rsb * 8) == (q * rsb) * 8;
    assert idx * 8 + bit == q * (rsb * 8) + (m * 8 + bit);
    DivModUnique(idx * 8 + bit, rsb * 8, q, m * 8 + bit);
  }

  /** A byte index below `rsb * height` lies in a row below `height`. */
  lemma RowBelow(rsb: int, idx: int, height: int)
    requires 0 < rsb && 0 <= idx < rsb * height
    ensures 0 <= idx / rsb < height
  {
    var q := idx / rsb;
    if q >= height {
      MulAtLeast(q, rsb);
    }
  }

  /** Decoding inverts the packing: the pixel lies inside the bitmap, its
      row and column recompose the bit offset, and the byte and bit it
      names are the ones sampled. */
  lemma DecodeRoundTrip(g: Glyph, idx: nat, bit: nat)
    requires ValidGlyph(g) && idx < |g.pixels| && bit < 8
    ensures var px := Decode(g.rowSizeBytes, idx, bit);
      && px.row * (g.rowSizeBytes * 8) + px.col == idx * 8 + bit
      && 0 <= px.row < g.height
      && 0 <= px.col < g.rowSizeBytes * 8
      && px.row * g.rowSizeBytes + px.col / 8 == idx
      && px.col % 8 == bit
      && (idx * 8 + bit) / 8 == idx
  {
    var rsb := g.rowSizeBytes;
    var q, m := idx / rsb, idx % rsb;
    SplitBitOffset(rsb, idx, bit);
    RowBelow(rsb, idx, g.height);
    DivModUnique(m * 8 + bit, 8, m, bit);
    DivModUnique(idx * 8 + bit, 8, idx, bit);
    assert q * (rsb * 8) + (m * 8 + bit) == (q * rsb + m) * 8 + bit;
  }

  /** A sampled pixel and the position of the next unconsumed draw. */
  datatype Sample = Sample(pixel: Pixel, next: nat)

  /** Steps 1 to 3 for one particle, given a draw `w` at or after `pos`
      that hits a non-zero byte. The pixel is inside the bitmap and in a
      non-zero byte; it is a foreground pixel unless all ten bit draws of
      the retry loop missed. */
  function SampleFrom(g: Glyph, draw: Oracle, bits: nat -> int, pos: nat, ghost w: nat): (r: Sample)
    requires ValidGlyph(g) && ValidOracle(draw) && BitsInRange(bits)
    requires pos <= w && ByteHit(g, draw, w)
    ensures pos < r.next
    ensures 0 <= r.pixel.row < g.height && 0 <= r.pixel.col < g.rowSizeBytes * 8
    ensures ForegroundByte(g, r.pixel.row, r.pixel.col)
    ensures PixelSet(g, r.pixel.row, r.pixel.col)
      || (pos + 11 <= r.next && TenMissed(g, r.pixel.row, r.pixel.col, bits, r.next))
  {
    var byte := AcceptByte(g, draw, pos, w);
    var bit := PickBit(g.pixels[byte.value], bits, byte.next);
    PickedPixel(g, byte.value, bits, byte.next);
    Sample(Decode(g.rowSizeBytes, byte.value, bit.value), bit.next)
  }

  /** The pixel the retry loop picks in byte `idx` lies in the bitmap and
      in that byte, and is set unless all ten bit draws missed. */
  lemma PickedPixel(g: Glyph, idx: nat, bits: nat -> int, pos: nat)
    requires ValidGlyph(g) && idx < |g.pixels| && BitsInRange(bits)
    ensures var bit := PickBit(g.pixels[idx], bits, pos);
      var px := Decode(g.rowSizeBytes, idx, bit.value);
      && InBitmap(g, px.row, px.col)
      && ByteOf(g, px.row, px.col) == idx
      && (PixelSet(g, px.row, px.col)
          || (bit.next == pos + 10 && TenMissed(g, px.row, px.col, bits, bit.next)))
  {
    var bit := PickBit(g.pixels[idx], bits, pos);
    SampledPixel(g, idx, bit.value);
    if !BitSet(g.pixels[idx], bit.value) {
      PickBitMissed(g.pixels[idx], bits, pos);
    }
  }

  /** Steps 1 to 3 for one particle, on an oracle under which the byte
      loop always terminates. */
  ghost function SamplePixel(g: Glyph, draw: Oracle, bits: nat -> int, pos: nat): (r: Sample)
    requires ValidGlyph(g) && ValidOracle(draw) && Live(g, draw) && BitsInRange(bits)
    ensures pos < r.next
    ensures 0 <= r.pixel.row < g.height && 0 <= r.pixel.col < g.rowSizeBytes * 8
    ensures ForegroundByte(g, r.pixel.row, r.pixel.col)
    ensures PixelSet(g, r.pixel.row, r.pixel.col)
      || (pos + 11 <= r.next && TenMissed(g, r.pixel.row, r.pixel.col, bits, r.next))
  {
    assert HitAfter(g, draw, pos);
    var w :| pos <= w && ByteHit(g, draw, w);
    SampleFrom(g, draw, bits, pos, w)
  }

  /** The decoded pixel of a byte and bit of the bitmap lies in the bitmap,
      in that byte, at that bit. */
  lemma SampledPixel(g: Glyph, idx: nat, bit: nat)
    requires ValidGlyph(g) && idx < |g.pixels| && bit < 8
    ensures var px := Decode(g.rowSizeBytes, idx, bit);
      && InBitmap(g, px.row, px.col)
      && ByteOf(g, px.row, px.col) == idx
      && px.col % 8 == bit
  {
    DecodeRoundTrip(g, idx, bit);
  }

  /** The ten bit draws before `n` all named a clear bit of the byte
      holding pixel (row, col): the retry loop gave up on that byte. */
  predicate TenMissed(g: Glyph, row: int, col: int, bits: nat -> int, n: nat) {
    var b := ByteOf(g, row, col);
    && 0 <= b < |g.pixels|
    && n >= 10
    && forall k: nat :: n - 10 <= k < n ==> !BitSet(g.pixels[b], bits(k))
  }

  /** A span [lo, hi) of oracle positions: the draws one retargeting used. */
  datatype Window = Window(lo: nat, hi: nat)

  /** The attractor `c`, shifted back by the offset, is a sampled pixel: an
      integral point inside the bitmap and in a non-zero byte, which is a
      foreground pixel unless the ten bit draws of `bits` just before the last
      draw of window `w` (the goal-size draw) all named clear bits of its byte. */
  ghost predicate GlyphTarget(g: Glyph, c: Point, ox: int, oy: int, bits: nat -> int, w: Window) {
    var row, col := c.y.Floor - oy, c.x.Floor - ox;
    && c.x == c.x.Floor as real
    && c.y == c.y.Floor as real
    && ForegroundByte(g, row, col)
    && (PixelSet(g, row, col)
        || (w.lo + 11 <= w.hi && TenMissed(g, row, col, bits, w.hi - 1)))
  }

  /** What `swarm_to_digit` does to one particle with the draws of window
      `w`: an attractor sampled from the glyph, tight stiffness, a goal size
      in [2, 3.5) and swarming; nothing else of the particle changes. */
  ghost predicate Retargeted(before: Particle, after: Particle, g: Glyph, ox: int, oy: int,
                             bits: nat -> int, w: Window) {
    && after == before.(gravCenter := after.gravCenter, power := TightPower,
                        goalSize := after.goalSize, swarming := true)
    && 2.0 <= after.goalSize < 3.5
    && GlyphTarget(g, after.gravCenter, ox, oy, bits, w)
  }

  /** Retargeting keeps a particle well formed: it only switches the
      stiffness to TightPower and leaves size and velocity alone. */
  lemma RetargetedKeepsWellFormed(before: Particle, after: Particle, g: Glyph, ox: int, oy: int,
                                  bits: nat -> int, w: Window)
    requires WellFormed(before) && Retargeted(before, after, g, ox, oy, bits, w)
    ensures WellFormed(after)
    ensures after.position == before.position && after.size == before.size
  {
  }

  /** One particle sent to pixel `px` shifted by the offset: tight
      stiffness, goal size `goalSize` and swarming. */
  function Aim(p: Particle, px: Pixel, ox: int, oy: int, goalSize: real): Particle {
    p.(gravCenter := Point((px.col + ox) as real, (px.row + oy) as real),
       power := TightPower, goalSize := goalSize, swarming := true)
  }

  /** Aiming at a sampled pixel with a goal size in [2, 3.5) retargets the
      particle within the window that ends right after the goal-size draw,
      which follows the sample's ten missed bit draws. */
  lemma AimRetargets(p: Particle, s: Sample, g: Glyph, ox: int, oy: int, goalSize: real,
                     bits: nat -> int, w: Window)
    requires ForegroundByte(g, s.pixel.row, s.pixel.col)
    requires PixelSet(g, s.pixel.row, s.pixel.col)
      || (w.lo + 10 <= s.next && s.next + 1 == w.hi && TenMissed(g, s.pixel.row, s.pixel.col, bits, s.next))
    requires 2.0 <= goalSize < 3.5
    ensures Retargeted(p, Aim(p, s.pixel, ox, oy, goalSize), g, ox, oy, bits, w)
  {
    var c := Aim(p, s.pixel, ox, oy, goalSize).gravCenter;
    assert c.x.Floor - ox == s.pixel.col && c.y.Floor - oy == s.pixel.row;
  }

  /** The body of the `swarm_to_digit` loop for one particle: its sample
      and goal size use the draws from `pos` up to the returned position. */
  ghost function SampleParticle(p: Particle, g: Glyph, ox: int, oy: int, draw: Oracle, bits: nat -> int, pos: nat)
    : (r: (Particle, nat))
    requires ValidGlyph(g) && ValidOracle(draw) && Live(g, draw) && BitsInRange(bits)
    ensures Retargeted(p, r.0, g, ox, oy, bits, Window(pos, r.1))
    ensures pos < r.1
  {
    var s := SamplePixel(g, draw, bits, pos);
    var goalSize := RandomInRangeF(2.0, 3.5, draw(s.next));
    AimRetargets(p, s, g, ox, oy, goalSize, bits, Window(pos, s.next + 1));
    (Aim(p, s.pixel, ox, oy, goalSize), s.next + 1)
  }

  /** The loop of `swarm_to_digit` from particle `i` up to `end`: the
      particles of [i, end) are retargeted to the glyph, one after the
      other, each with the draws of its own window; the windows follow one
      another inside [pos, r.1), and every other particle is left as it was. */
  ghost function RetargetRange(ps: seq<Particle>, g: Glyph, i: int, end: int,
                               ox: int, oy: int, draw: Oracle, bits: nat -> int, pos: nat)
    : (r: (seq<Particle>, nat, seq<Window>))
    requires ValidGlyph(g) && ValidOracle(draw) && Live(g, draw) && BitsInRange(bits)
    requires 0 <= i && end <= |ps|
    decreases end - i
    ensures |r.0| == |ps| && |r.2| == |ps|
    ensures pos <= r.1
    ensures forall j :: 0 <= j < |ps| && !(i <= j < end) ==> r.0[j] == ps[j]
    ensures forall j :: i <= j < end ==> Retargeted(ps[j], r.0[j], g, ox, oy, bits, r.2[j])
    ensures forall j :: i <= j < end ==> pos <= r.2[j].lo < r.2[j].hi <= r.1
    ensures forall j, k :: i <= j < k < end ==> r.2[j].hi <= r.2[k].lo
  {
    if end <= i then (ps, pos, seq(|ps|, _ => Window(pos, pos)))
    else
      var (p, n) := SampleParticle(ps[i], g, ox, oy, draw, bits, pos);
      var qs := ps[i := p];
      var r := RetargetRange(qs, g, i + 1, end, ox, oy, draw, bits, n);
      var ws := r.2[i := Window(pos, n)];
      RetargetStep(ps, qs, r.0, i, end, g, ox, oy, bits, ws);
      WindowsFollow(r.2, ws, i, end, pos, n, r.1);
      (r.0, r.1, ws)
  }

  /** The window [pos, n) of particle `i` put in front of windows of (i, end)
      that follow one another inside [n, hi): the windows of [i, end) follow
      one another inside [pos, hi). */
  lemma WindowsFollow(rest: seq<Window>, ws: seq<Window>, i: int, end: int, pos: nat, n: nat, hi: nat)
    requires 0 <= i < end <= |rest| && pos < n
    requires ws == rest[i := Window(pos, n)]
    requires forall j :: i + 1 <= j < end ==> n <= rest[j].lo < rest[j].hi <= hi
    requires forall j, k :: i + 1 <= j < k < end ==> rest[j].hi <= rest[k].lo
    requires n <= hi
    ensures forall j :: i <= j < end ==> pos <= ws[j].lo < ws[j].hi <= hi
    ensures forall j, k :: i <= j < k < end ==> ws[j].hi <= ws[k].lo
  {
  }

  /** One step of RetargetRange: particle `i` retargeted from `ps` to `qs`,
      the particles of (i, end) from `qs` to `rs`, make all of [i, end)
      retargeted from `ps` to `rs` and leave the rest alone. */
  lemma RetargetStep(ps: seq<Particle>, qs: seq<Particle>, rs: seq<Particle>, i: int, end: int,
                     g: Glyph, ox: int, oy: int, bits: nat -> int, ws: seq<Window>)
    requires 0 <= i < end <= |ps| && |qs| == |rs| == |ps| == |ws|
    requires Retargeted(ps[i], qs[i], g, ox, oy, bits, ws[i])
    requires forall j :: 0 <= j < |ps| && j != i ==> qs[j] == ps[j]
    requires forall j :: 0 <= j < |ps| && !(i + 1 <= j < end) ==> rs[j] == qs[j]
    requires forall j :: i + 1 <= j < end ==> Retargeted(qs[j], rs[j], g, ox, oy, bits, ws[j])
    ensures forall j :: 0 <= j < |ps| && !(i <= j < end) ==> rs[j] == ps[j]
    ensures forall j :: i <= j < end ==> Retargeted(ps[j], rs[j], g, ox, oy, bits, ws[j])
  {
    forall j | i <= j < end
      ensures Retargeted(ps[j], rs[j], g, ox, oy, bits, ws[j])
    {
      if j == i {
        assert rs[i] == qs[i];
      } else {
        assert qs[j] == ps[j];
      }
    }
  }

  /** `swarm_to_digit(digit, start_idx, end_idx, offset_x, offset_y)`:
      exactly the particles in [start_idx, min(end_idx, NumParticles)) are
      retargeted to the digit's glyph, each with the draws of its own
      window inside [pos, r.1), and every other particle is left as it was. */
  ghost function SwarmToDigit(ps: seq<Particle>, font: Font, digit: int, startIdx: int, endIdx: int,
                              ox: int, oy: int, draw: Oracle, pos: nat)
    : (r: (seq<Particle>, nat, seq<Window>))
    requires ValidFont(font) && ValidOracle(draw) && FontLive(font, draw)
    requires 0 <= digit < 10
    requires |ps| == NumParticles && 0 <= startIdx
    ensures |r.0| == NumParticles && |r.2| == NumParticles
    ensures pos <= r.1
    ensures forall i :: 0 <= i < NumParticles && !(startIdx <= i < Min(endIdx, NumParticles)) ==>
      r.0[i] == ps[i]
    ensures forall i :: startIdx <= i < Min(endIdx, NumParticles) ==>
      Retargeted(ps[i], r.0[i], font[digit], ox, oy, BitDraws(draw), r.2[i])
    ensures forall i :: startIdx <= i < Min(endIdx, NumParticles) ==>
      pos <= r.2[i].lo < r.2[i].hi <= r.1
    ensures forall i, k :: startIdx <= i < k < Min(endIdx, NumParticles) ==> r.2[i].hi <= r.2[k].lo
  {
    BitDrawsInRange(draw);
    RetargetRange(ps, font[digit], startIdx, Min(endIdx, NumParticles), ox, oy, draw, BitDraws(draw), pos)
  }
}
